=== FILE: README.md ===
# abm_framework grid core in Dafny

This project models the agent-based-modelling core of `abm_framework`:
- the `Agent` constructor;
- the `Environment` grid, whose 1-based cells hold agent references with a nominal capacity;
- `add_agent` and `get_cell`;
- `get_neighbourhood`;
- the Game of Life demo that drives them.

`get_neighbourhood` is modelled twice:
- **As written.** Module `Neighbourhood` follows framework.py exactly:
  - the window is half-open, `range(Row - radius, Row + radius)`;
  - the origin-cell rule applies;
  - the endless wrap step overwrites the outer loop variable `row`;
  - `order` is coerced to "random";
  - the method returns `None`, because it assigns the result of `random.shuffle` and has no `return`.
- **Corrected.** Module `Moore` builds the Chebyshev square `-radius .. radius` from the reference window in module `Windows`, wraps each offset on its own axis, and returns the list, shuffled when the order is "random".

The Game of Life module takes each unit's neighbour list as a parameter, intended to be the corrected neighbourhood (`GameOfLife.CountIgnoresOrder`).

Python semantics are written out explicitly:
- Negative list indices, and the empty `range` for a negative bound, are in module `Lists`.
- Agent identity is an integer reference (`AgentRef`).
- `random.shuffle` is Python's Fisher–Yates pass, driven by a stream of draws (module `Shuffling`).
- The random cell choice of `add_agent` is a stream of drawn positions.
- A Python exception is the `Err` case of `Result` (`IndexError`, `AttributeError`).

## Model

| member | source | states |
|---|---|---|
| `Lists.PyIndex` | framework.py:98 | Python list indexing succeeds exactly for `-len <= i < len`, and negative indices count from the end; otherwise it is IndexError |
| `Lists.WithoutCounts` | framework.py:121-125 | filtering the origin cell drops every occurrence of the querying agent and keeps every other occupant with its multiplicity |
| `Lists.WithoutMembers` | framework.py:121-125 | an agent is in the filtered origin cell iff it is in the cell and is not the querying agent |
| `Agents.Zip` | framework.py:49 | the keys of `dict(zip(attributes, initialvals))` are exactly the attribute names |
| `Agents.ZipLastWins` | framework.py:49 | a repeated attribute name keeps the value paired with its last occurrence |
| `Agents.NewAgent` | framework.py:35-51 | an empty attribute list or a length mismatch leaves `Attributes` None and no `Row`/`Col`; otherwise the dictionary has exactly the given keys and the position is the unassigned `(0, 0)` |
| `Agents.NewAgentLastValueWins` | framework.py:49 | each name of a built agent maps to the initial value at its last occurrence |
| `Agents.DistinctNamesKeepEveryValue` | framework.py:49 | with distinct names every attribute holds its own initial value |
| `Grid.NewEnvironment` | framework.py:60-71 | a new environment keeps capacity, endlessness and dimensions, has `range(rows)` x `range(columns)` cells, and every cell is empty |
| `Grid.GetCell` | framework.py:93-98 | inside the grid it returns cell `(row, col)`; coordinates down to `1 - rows` / `1 - columns` index from the far edge; beyond either edge it is IndexError |
| `Grid.FirstFreeDraw` | framework.py:83-87 | the placement loop stops at the first drawn cell below capacity; every earlier draw was full |
| `Grid.FullGridNeverExits` | framework.py:83-87 | when no cell is below capacity, no stream of draws ends the placement loop |
| `Grid.Place` | framework.py:89-91 | placing appends the reference to the target cell, leaves every other cell and the grid configuration unchanged, and sets the agent's position |
| `Grid.AddAgent` | framework.py:73-91 | with positive coordinates it places into that cell iff the cell exists, with no capacity check; otherwise it places into the first free drawn cell, or raises IndexError when a dimension is empty; the agent records the new position |
| `Grid.ExplicitPlacementIgnoresCapacity` | framework.py:79-80 | explicit placement into a full cell succeeds and leaves the cell over capacity |
| `Grid.AddingTwiceLeavesTwoCopies` | framework.py:89-91 | adding an agent again does not remove it from its first cell, so the reference sits in two cells |
| `Windows.Wrap` | framework.py:127-131 | one wrap step maps `1 - n .. 2n` into the axis, leaves in-range coordinates alone, and shifts by at most one axis length |
| `Windows.WindowMembers` | framework.py:114-134 | an agent is in the window iff some offset pair in `[lo, hi)` contributes it |
| `Neighbourhood.EffectiveOrder` | framework.py:110-112 | an order that contains "random" as a substring is kept unchanged, and any other order becomes exactly "random" |
| `Neighbourhood.EffectiveOrderExamples` | framework.py:110-111 | the test is a substring test: "nonrandom" is kept, while "sorted" and the empty order become "random" |
| `Neighbourhood.EffectiveOrderIdempotent` | framework.py:110-112 | coercing an already coerced order changes nothing |
| `Neighbourhood.OriginCell` | framework.py:117-125 | the origin cell contributes nothing when capacity is at most 1; otherwise it contributes the occupants of the cell `get_cell` reads, negative indices included, other than the querying agent, raising only where `get_cell` would |
| `Neighbourhood.OriginCellReadsFarCorner` | framework.py:119-125 | an agent recorded at `(0, 0)` on a 3 x 3 grid reads `Array[-1][-1]`, so its origin cell is the far corner and that corner's occupant is collected |
| `Neighbourhood.Collect` | framework.py:114-137 | types other than "moore" (including "neumann") collect nothing; an agent without `Row`/`Col` (its construction failed and it was never added) raises AttributeError; a non-positive radius collects nothing |
| `Neighbourhood.ScanRowIsWindowRow` | framework.py:116-134 | while the wrapped row stays in step, the inner loop collects exactly the window row of its offset |
| `Neighbourhood.ScanRowsIsWindowRows` | framework.py:115-134 | the outer loop from offset `dr` collects exactly the window rows `dr .. radius - 1` |
| `Neighbourhood.CollectIsHalfOpenWindow` | framework.py:114-134 | for an agent inside the grid, on a bounded grid or an endless one with more rows than the radius, the loops collect exactly the window with offsets `-radius .. radius - 1` |
| `Neighbourhood.GetNeighbourhood` | framework.py:100-142 | the method raises exactly when collecting raises, and otherwise returns None |
| `Shuffling.Shuffle` | framework.py:139 | shuffling keeps the length and every element with its multiplicity |
| `Shuffling.EveryOrderReachable` | framework.py:139 | every permutation of the list is the outcome of some stream of draws |
| `Shuffling.ShuffleKeepsMembers` | demos/gol.py:50 | shuffling neither adds nor drops an element |
| `Shuffling.ShuffleKeepsDistinct` | demos/gol.py:50 | shuffling a list without repetitions gives one without repetitions |
| `Moore.MooreNeighbourhood` | framework.py:100-142 | corrected method: non-moore types give an empty list, an agent without `Row`/`Col` raises AttributeError, and an agent outside the grid (the unplaced one at `(0, 0)` included) raises IndexError; the result is a permutation of the symmetric window, and equals the window when the order is not "random" |
| `Moore.BoundedMembers` | framework.py:114-134 | on a bounded grid an agent is a neighbour iff some in-grid cell within Chebyshev distance `radius` holds it, counting the own cell only when capacity exceeds 1 and then without the agent itself |
| `Moore.EndlessOffsetsLand` | framework.py:127-131 | on an endless grid every non-origin offset up to the grid size wraps into the grid and contributes the whole cell |
| `Moore.OriginOmitsSelf` | framework.py:121-125 | the agent's own cell never contributes the querying agent itself |
| `Moore.OffsetAvoidsOwnCell` | framework.py:117-131 | a non-zero offset shorter than the grid along each axis never wraps back onto the agent's own cell |
| `Moore.SelfOnlyFromOtherCells` | framework.py:117-134 | on a bounded grid, or an endless one with the radius below both dimensions, the agent appears among its own neighbours only through another cell that also holds it |
| `Moore.OrderOnlyPermutes` | framework.py:138-139 | two calls that differ only in order and draws give permutations of each other |
| `Moore.EveryOrderPossible` | framework.py:138-139 | every ordering of the neighbours is a possible "random" result |
| `Moore.HalfOpenWindowMissesFarSide` | framework.py:115-116 | counterexample: a diagonal neighbour at offset `(+1, +1)` is missed by the as-written loops and found by the corrected method |
| `Moore.CollectedListIsDiscarded` | framework.py:138-142 | counterexample: the as-written method collects a neighbour and returns None; the corrected method returns it |
| `Moore.RowCarryTurnsOffsetIntoOrigin` | framework.py:127-131 | counterexample: on a one-row endless grid the wrapped `row` turns offset `(-1, 0)` into the origin cell, and the agent's cell is lost |
| `Moore.SmallRingWindow` | framework.py:127-131 | on the one-row endless `RingGrid` with radius 1, the offsets `(-1, 0)` and `(1, 0)` wrap onto the agent's own cell and the symmetric window lists the agent twice |
| `Moore.SmallRingListsSelf` | framework.py:127-131 | on that ring the corrected method returns the querying agent twice as its own neighbour |
| `Moore.UnplacedAgentSeesFarCorner` | framework.py:114-125 | with radius 1 on a bounded grid, an agent built but never placed, at `(0, 0)`, collects the far corner cell `(rows, columns)` through `Array[-1][-1]` when capacity exceeds 1; the corrected method raises IndexError |
| `GameOfLife.NextLife` | demos/gol.py:75-91 | `life_t1` is 0 or 1, and is 1 iff Conway's B3/S23 rule holds for `life_t0` and the live-neighbour count |
| `GameOfLife.LiveCount` | demos/gol.py:69-73 | the live count is at most the list length, and is zero iff no listed neighbour is alive |
| `GameOfLife.LiveCountAppend` | demos/gol.py:70-73 | counting over two consecutive pieces of the list adds up |
| `GameOfLife.LiveCountPermutation` | demos/gol.py:69-73 | the live count depends only on the multiset of neighbours, not their order |
| `GameOfLife.LiveCountReadsOnlyT0` | demos/gol.py:72 | the live count reads only `life_t0` |
| `GameOfLife.RulePass` | demos/gol.py:64-91 | each listed unit gets `life_t1` from the rule against the old states, and unlisted units are untouched; over all units it is the synchronous update, whatever the list order |
| `GameOfLife.CommitPass` | demos/gol.py:97-100 | each listed unit's `life_t0` takes its `life_t1`, and unlisted units are untouched |
| `GameOfLife.Generation` | demos/gol.py:64-100 | after one generation over all units, each unit is alive iff Conway's rule held for its old state and its neighbours' old states |
| `GameOfLife.SetAlive` | demos/gol.py:51-52 | exactly the listed units get `life_t0 = 1` |
| `GameOfLife.Seed` | demos/gol.py:49-52 | seeding succeeds iff there are at least 50 agents; then exactly the first 50 of the shuffled list are set alive |
| `GameOfLife.SeededLiveSet` | demos/gol.py:51-52 | seeding an all-dead population makes the live set exactly the chosen units |
| `GameOfLife.SeedMakesFiftyAlive` | demos/gol.py:49-52 | from distinct agents and an all-dead population, seeding gives exactly 50 live units for every shuffle |
| `GameOfLife.DemoSeedHasFiftyAlive` | demos/gol.py:41-52 | the demo's 100 dead units seed to exactly 50 live ones |
| `GameOfLife.CountIgnoresOrder` | demos/gol.py:67-73 | with the corrected neighbourhood the live count does not depend on the order or the draws |

## Left out

- The database manager and the `warning` output are left out: they are I/O. So are plotting and the density and agent tables. The `warning` calls change no state.
- The randomness of `random.choice` and `random.shuffle` is not modelled as such: both are parameters, a stream of drawn positions and a stream of draws respectively.
- `Populations`, `Simulation`, `get_agents`, `get_attr_value` and `set_attr_value` are not part of this model: the demo calls them, but framework.py does not define them. Units are a sequence of `life_t0`/`life_t1` pairs indexed by agent reference.
- The demo's calling convention is not followed. It passes a fifth argument to the `Environment` constructor and calls `get_neighbourhood` with a `mode=` keyword. framework.py accepts neither, so this model gives the rule each unit's neighbour list as a parameter, for which the corrected neighbourhood is intended.
- Attribute values are never computed with, so `Agents.Value` is an uninterpreted choice of integer, real or text.
- `Grid.AddAgent`: requires that, in the random branch with a non-empty grid, the draw stream reaches a free cell. The Python loop does not terminate otherwise, as `Grid.FullGridNeverExits` states for a full grid.
- `Moore.MooreNeighbourhood`: an agent whose position lies outside the grid is reported as IndexError instead of imitating the as-written Python indexing of out-of-range coordinates.
- `Neighbourhood.CollectIsHalfOpenWindow`: states the reference window only for an agent inside the grid, and only on bounded grids and on endless grids with more rows than the radius. With no more rows than the radius, the row carry makes the loops differ from any per-offset window (`Moore.RowCarryTurnsOffsetIntoOrigin`). For an agent outside the grid, such as an unplaced one at `(0, 0)`, Python's negative indexing picks far cells; `Moore.UnplacedAgentSeesFarCorner` states this only for radius 1 on a bounded grid.
- The "neumann" type is left unimplemented, as in framework.py, where its branch is `pass`; it collects nothing.
- `Neighbourhood.Collect`: its contract fixes only the non-moore cases, an agent without `Row`/`Col`, and a non-positive radius. The content of the moore case is stated by `Neighbourhood.CollectIsHalfOpenWindow`, and only as far as that lemma reaches: an agent inside the grid, on a bounded grid or an endless one with more rows than the radius. Off-grid agents are covered only by `Moore.UnplacedAgentSeesFarCorner`, and rings no taller than the radius only by `Moore.RowCarryTurnsOffsetIntoOrigin`.
- `Moore.MooreNeighbourhood`: like the source for in-window offsets, it excludes the querying agent only from the origin offset. On an endless grid with no more rows or columns than the radius, wrapped offsets land back on the agent's own cell, so the agent can be listed as its own neighbour (`Moore.SmallRingListsSelf`). `Moore.SelfOnlyFromOtherCells` rules this out whenever the radius is below both dimensions.
- Capacity is followed as the code does it, not as its description suggests. Only the random placement consults the capacity. Explicit placement may overfill a cell, and an agent added twice sits in two cells.

## Findings

| source | as written | input that shows it | evidently intended | confidence | as-written member | corrected member |
|---|---|---|---|---|---|---|
| framework.py:115-116 | both loops run over `range(Row - radius, Row + radius)`, so offsets `-radius .. radius - 1`: the far row and column are never visited | bounded 3 x 3 grid, agent 0 at (2, 2), agent 1 at (3, 3), radius 1: agent 1 is not found | offsets `-radius .. radius` on both axes | not executed; high | `Moore.HalfOpenWindowMissesFarSide` (on `Neighbourhood.Collect`) | `Moore.MooreNeighbourhood`, property `Moore.BoundedMembers` |
| framework.py:138-142 | `ls_neighbourhood = random.shuffle(ls_neighbourhood)` stores `None`, and the method has no `return` | bounded 3 x 3 grid, agent 0 at (2, 2), agent 1 at (1, 1), radius 1: the list `[1]` is collected and `None` is returned | return the shuffled list | not executed; high | `Moore.CollectedListIsDiscarded` (on `Neighbourhood.GetNeighbourhood`) | `Moore.MooreNeighbourhood`, property `Moore.OrderOnlyPermutes` |
| framework.py:127-131 | the wrap step rewrites the loop variable `row` itself, and the rewritten row is kept for the remaining columns | endless 1 x 3 grid, capacity 2, agent 0 at (1, 2), radius 1: offset `(-1, 0)` wraps onto row 1, is taken for the origin cell, and agent 0's cell is lost | wrap a copy of the coordinates for each cell, so the loop's own `row` keeps running over its range; what a ring with no more rows or columns than the radius should report is not evident, and with per-cell wrapping the agent's own cell is revisited and the agent listed as its own neighbour (`Moore.SmallRingListsSelf`) | not executed; low | `Moore.RowCarryTurnsOffsetIntoOrigin` (on `Neighbourhood.Collect`) | `Moore.MooreNeighbourhood`, properties `Moore.EndlessOffsetsLand` and, for a radius below both dimensions, `Moore.SelfOnlyFromOtherCells` |
| framework.py:114-125 | an agent that was built but never added keeps `Row = Col = 0` (framework.py lines 50-51), and the origin branch then reads `Array[-1][-1]` | bounded 3 x 3 grid, capacity 2, agent 5 at (3, 3), agent 0 built but never placed, radius 1: the list collected for agent 0 is `[5]` | an agent not on the grid has no neighbourhood and the call fails | not executed; medium | `Moore.UnplacedAgentSeesFarCorner` (on `Neighbourhood.Collect`) | `Moore.MooreNeighbourhood`, whose `r.Ok? <==> InGrid` clause gives IndexError, stated for this case in `Moore.UnplacedAgentSeesFarCorner` |

=== FILE: agents.dfy ===
/** Agents: an identity, an attribute dictionary and a grid position (framework.py, class Agent). */
module Agents {
  import opened Wrappers
  import opened Lists

  /** An attribute value; the attribute dictionary only stores values, it never computes with them. */
  datatype Value = Int(i: int) | Real(x: real) | Text(s: string)

  /** 1-based grid coordinates; `(0, 0)` stands for "not yet placed". */
  datatype Position = Position(row: int, col: int)

  const Unassigned := Position(0, 0)

  /** An agent object. `attributes == None` is the Python `Attributes = None`;
      `position == None` means the object has no `Row`/`Col` attributes at all, so reading
      them raises AttributeError. */
  datatype Agent = Agent(id: int, attributes: Option<map<string, Value>>, position: Option<Position>)

  /** `names[k]` is not repeated later in `names`, so its value is the one a dictionary keeps. */
  predicate LastOccurrence(names: seq<string>, k: int)
    requires 0 <= k < |names|
  {
    forall j :: k < j < |names| ==> names[j] != names[k]
  }

  /** `dict(zip(names, vals))` for lists of equal length: the keys are the names, and later
      pairs overwrite earlier ones. */
  function Zip(names: seq<string>, vals: seq<Value>): (m: map<string, Value>)
    requires |names| == |vals|
    ensures forall x :: x in m <==> x in names
  {
    if |names| == 0 then map[]
    else
      var n := |names| - 1;
      assert names == names[..n] + [names[n]];
      Zip(names[..n], vals[..n])[names[n] := vals[n]]
  }

  /** A name keeps the value paired with its last occurrence in the list. */
  lemma {:induction false} ZipLastWins(names: seq<string>, vals: seq<Value>, k: int)
    requires |names| == |vals| && 0 <= k < |names|
    requires LastOccurrence(names, k)
    ensures names[k] in Zip(names, vals) && Zip(names, vals)[names[k]] == vals[k]
  {
    var n := |names| - 1;
    if k < n {
      assert names[n] != names[k];
      assert LastOccurrence(names[..n], k);
      ZipLastWins(names[..n], vals[..n], k);
    }
  }

  /** `Agent(id, attributes, initialvals)`: the dictionary is built only from a non-empty
      attribute list whose length matches the initial values; only then are `Row`/`Col`
      set to the unassigned position. */
  function NewAgent(id: int, attributes: seq<string>, initialvals: seq<Value>): (a: Agent)
    ensures a.id == id
    ensures |attributes| == 0 ==> a.attributes.None? && a.position.None?
    ensures |attributes| != |initialvals| ==> a.attributes.None? && a.position.None?
    ensures a.attributes.Some? <==> 0 < |attributes| == |initialvals|
    ensures a.attributes.Some? ==>
      && a.position == Some(Unassigned)
      && a.attributes.value == Zip(attributes, initialvals)
      && (forall x :: x in a.attributes.value <==> x in attributes)
  {
    if |attributes| == 0 then Agent(id, None, None)
    else if |attributes| > |initialvals| || |attributes| < |initialvals| then Agent(id, None, None)
    else Agent(id, Some(Zip(attributes, initialvals)), Some(Unassigned))
  }

  /** Every attribute name of a built dictionary holds the initial value listed at its last
      occurrence. */
  lemma NewAgentLastValueWins(id: int, attributes: seq<string>, initialvals: seq<Value>, k: int)
    requires 0 < |attributes| == |initialvals| && 0 <= k < |attributes|
    requires LastOccurrence(attributes, k)
    ensures NewAgent(id, attributes, initialvals).attributes.Some?
    ensures NewAgent(id, attributes, initialvals).attributes.value[attributes[k]] == initialvals[k]
  {
    ZipLastWins(attributes, initialvals, k);
  }

  /** With distinct attribute names every name maps to its own initial value. */
  lemma DistinctNamesKeepEveryValue(id: int, attributes: seq<string>, initialvals: seq<Value>)
    requires 0 < |attributes| == |initialvals|
    requires Distinct(attributes)
    ensures NewAgent(id, attributes, initialvals).attributes.Some?
    ensures forall k :: 0 <= k < |attributes| ==>
      NewAgent(id, attributes, initialvals).attributes.value[attributes[k]] == initialvals[k]
  {
    forall k | 0 <= k < |attributes|
      ensures NewAgent(id, attributes, initialvals).attributes.value[attributes[k]] == initialvals[k]
    {
      NewAgentLastValueWins(id, attributes, initialvals, k);
    }
  }
}

=== FILE: gol.dfy ===
/** The Game of Life demo (demos/gol.py): 100 units with attributes `life_t0` (state this
    generation) and `life_t1` (state next generation), 50 of them seeded alive, and each
    generation a rule pass that writes only `life_t1` followed by a commit pass that copies
    `life_t1` into `life_t0`. Units are indexed by their agent reference; each unit's
    neighbour list is a parameter (the corrected Moore neighbourhood of radius 1 in the
    demo). */
module GameOfLife {
  import opened Wrappers
  import opened Lists
  import opened Grid
  import opened Shuffling
  import opened Agents
  import opened Moore

  /** The two attributes the demo gives every unit. */
  datatype Unit = Unit(lifeT0: int, lifeT1: int)

  /** `size = 100` in `add_population`. */
  const PopulationSize := 100

  /** `for i in range(50)` in the seeding loop. */
  const SeedCount := 50

  /** Conway's rule B3/S23: a cell is alive next generation when it has three live
      neighbours, or when it is alive and has two. */
  predicate Conway(alive: bool, n: int) {
    n == 3 || (alive && n == 2)
  }

  /** The demo's branches for `life_t1`, given `life_t0` and the number of live neighbours. */
  function NextLife(t0: int, n: int): (t1: int)
    ensures t1 == 0 || t1 == 1
    ensures t1 == 1 <==> Conway(t0 == 1, n)
  {
    if t0 == 1 then
      if n == 2 || n == 3 then 1 else 0
    else if n == 3 then 1
    else 0
  }

  /** `neighbour.get_attr_value("life_t0") == 1`; a reference that names no unit is no live
      neighbour. */
  predicate Alive(units: seq<Unit>, x: AgentRef) {
    0 <= x < |units| && units[x].lifeT0 == 1
  }

  /** `_neighbours_alive`: the entries of the neighbour list that are alive, counted with
      repetition. */
  function LiveCount(units: seq<Unit>, xs: seq<AgentRef>): (n: nat)
    ensures n <= |xs|
    ensures n == 0 <==> forall k :: 0 <= k < |xs| ==> !Alive(units, xs[k])
  {
    if |xs| == 0 then 0
    else (if Alive(units, xs[0]) then 1 else 0) + LiveCount(units, xs[1..])
  }

  /** Counting over two consecutive pieces of a list adds up. */
  lemma {:induction false} LiveCountAppend(units: seq<Unit>, a: seq<AgentRef>, b: seq<AgentRef>)
    ensures LiveCount(units, a + b) == LiveCount(units, a) + LiveCount(units, b)
  {
    if |a| == 0 {
      assert a + b == b;
    } else {
      assert (a + b)[0] == a[0];
      assert (a + b)[1..] == a[1..] + b;
      LiveCountAppend(units, a[1..], b);
    }
  }

  /** The count depends only on which references the list holds and how often, not on their
      order: a shuffled neighbour list gives the same count. */
  lemma {:induction false} LiveCountPermutation(units: seq<Unit>, a: seq<AgentRef>, b: seq<AgentRef>)
    requires multiset(a) == multiset(b)
    ensures LiveCount(units, a) == LiveCount(units, b)
    decreases |a|
  {
    if |a| == 0 {
      assert |b| == |multiset(b)| == 0;
    } else {
      var x := a[0];
      assert x in multiset(b);
      var j := IndexOf(b, |b|, x);
      assert b[..|b|] == b;
      var b' := b[..j] + b[j + 1..];
      assert b == b[..j] + [x] + b[j + 1..];
      RemoveAt(b, j);
      assert a == [x] + a[1..];
      assert multiset(a) == multiset{x} + multiset(a[1..]);
      LiveCountPermutation(units, a[1..], b');
      LiveCountAppend(units, b[..j] + [x], b[j + 1..]);
      LiveCountAppend(units, b[..j], [x]);
      LiveCountAppend(units, b[..j], b[j + 1..]);
    }
  }

  /** The count reads only `life_t0`: populations that agree on it give the same count. */
  lemma {:induction false} LiveCountReadsOnlyT0(u: seq<Unit>, v: seq<Unit>, xs: seq<AgentRef>)
    requires |u| == |v|
    requires forall i :: 0 <= i < |u| ==> u[i].lifeT0 == v[i].lifeT0
    ensures LiveCount(u, xs) == LiveCount(v, xs)
  {
    if |xs| > 0 {
      LiveCountReadsOnlyT0(u, v, xs[1..]);
    }
  }

  /** Unit `i` after the rule has been applied to it against the population `units`. */
  function Decide(units: seq<Unit>, nbrs: seq<seq<AgentRef>>, i: int): Unit
    requires 0 <= i < |units| == |nbrs|
  {
    units[i].(lifeT1 := NextLife(units[i].lifeT0, LiveCount(units, nbrs[i])))
  }

  /** The synchronous update the double buffer is meant to give: every unit decided against
      the same snapshot of `life_t0`. */
  function Synchronous(units: seq<Unit>, nbrs: seq<seq<AgentRef>>): (next: seq<Unit>)
    requires |units| == |nbrs|
    ensures |next| == |units|
    ensures forall i :: 0 <= i < |units| ==> next[i].lifeT0 == units[i].lifeT0
  {
    seq(|units|, i requires 0 <= i < |units| => Decide(units, nbrs, i))
  }

  /** Every reference in `agents` names a unit. */
  predicate Covers(units: seq<Unit>, agents: seq<AgentRef>) {
    forall x :: x in agents ==> 0 <= x < |units|
  }

  /** The rule pass of one generation (gol.py lines 64-91): for each agent in list order,
      count its live neighbours in the current population and set its `life_t1`. Units not in
      `agents` are left alone. Because only `life_t1` is written and only `life_t0` is read,
      the agent order does not matter, and a pass over every unit is the synchronous update. */
  method RulePass(units: seq<Unit>, nbrs: seq<seq<AgentRef>>, agents: seq<AgentRef>) returns (next: seq<Unit>)
    requires |units| == |nbrs| && Covers(units, agents)
    ensures |next| == |units|
    ensures forall i :: 0 <= i < |units| && i in agents ==> next[i] == Decide(units, nbrs, i)
    ensures forall i :: 0 <= i < |units| && i !in agents ==> next[i] == units[i]
    ensures (forall i :: 0 <= i < |units| ==> i in agents) ==> next == Synchronous(units, nbrs)
  {
    next := units;
    for k := 0 to |agents|
      invariant |next| == |units|
      invariant forall i :: 0 <= i < |units| ==> next[i].lifeT0 == units[i].lifeT0
      invariant forall i :: 0 <= i < |units| && i in agents[..k] ==> next[i] == Decide(units, nbrs, i)
      invariant forall i :: 0 <= i < |units| && i !in agents[..k] ==> next[i] == units[i]
    {
      var a := agents[k];
      assert a in agents;
      var alive := LiveCount(next, nbrs[a]);
      LiveCountReadsOnlyT0(next, units, nbrs[a]);
      next := next[a := next[a].(lifeT1 := NextLife(next[a].lifeT0, alive))];
      assert agents[..k + 1] == agents[..k] + [a];
    }
    assert agents[..|agents|] == agents;
  }

  /** The commit pass (gol.py lines 97-100): each listed agent's `life_t0` takes its
      `life_t1`. */
  method CommitPass(units: seq<Unit>, agents: seq<AgentRef>) returns (next: seq<Unit>)
    requires Covers(units, agents)
    ensures |next| == |units|
    ensures forall i :: 0 <= i < |units| && i in agents ==> next[i] == Unit(units[i].lifeT1, units[i].lifeT1)
    ensures forall i :: 0 <= i < |units| && i !in agents ==> next[i] == units[i]
  {
    next := units;
    for k := 0 to |agents|
      invariant |next| == |units|
      invariant forall i :: 0 <= i < |units| && i in agents[..k] ==> next[i] == Unit(units[i].lifeT1, units[i].lifeT1)
      invariant forall i :: 0 <= i < |units| && i !in agents[..k] ==> next[i] == units[i]
    {
      var a := agents[k];
      assert a in agents;
      next := next[a := next[a].(lifeT0 := next[a].lifeT1)];
      assert agents[..k + 1] == agents[..k] + [a];
    }
    assert agents[..|agents|] == agents;
  }

  /** One generation: rule pass, then commit pass, over the same agent list. When the list
      names every unit, each unit's new state is Conway's rule applied to the old states of
      its neighbours, whatever the order of the list. */
  method Generation(units: seq<Unit>, nbrs: seq<seq<AgentRef>>, agents: seq<AgentRef>) returns (next: seq<Unit>)
    requires |units| == |nbrs| && Covers(units, agents)
    requires forall i :: 0 <= i < |units| ==> i in agents
    ensures |next| == |units|
    ensures forall i :: 0 <= i < |units| ==>
      next[i].lifeT0 == next[i].lifeT1 &&
      (next[i].lifeT0 == 1 <==> Conway(units[i].lifeT0 == 1, LiveCount(units, nbrs[i])))
  {
    var decided := RulePass(units, nbrs, agents);
    next := CommitPass(decided, agents);
  }

  /** `agents[i].set_attr_value("life_t0", 1)` for every reference in `xs`. */
  function SetAlive(units: seq<Unit>, xs: seq<AgentRef>): (r: seq<Unit>)
    requires Covers(units, xs)
    ensures |r| == |units|
    ensures forall i :: 0 <= i < |units| ==> r[i] == if i in xs then units[i].(lifeT0 := 1) else units[i]
  {
    if |xs| == 0 then units
    else
      var n := |xs| - 1;
      assert xs == xs[..n] + [xs[n]];
      assert xs[n] in xs && forall x :: x in xs[..n] ==> x in xs;
      var r := SetAlive(units, xs[..n]);
      r[xs[n] := r[xs[n]].(lifeT0 := 1)]
  }

  /** The seeding of gol.py lines 49-52: shuffle the agent list with the given draws, then
      set `life_t0` to 1 for the first 50 agents; a list shorter than 50 runs off its end
      with IndexError. */
  function Seed(units: seq<Unit>, agents: seq<AgentRef>, draws: seq<nat>): (r: Result<seq<Unit>>)
    requires Covers(units, agents)
    ensures r.Ok? <==> |agents| >= SeedCount
    ensures r.Ok? ==> |r.value| == |units|
    ensures r.Ok? ==> forall i :: 0 <= i < |units| ==>
      r.value[i] == if i in Shuffle(agents, draws)[..SeedCount] then units[i].(lifeT0 := 1) else units[i]
  {
    var order := Shuffle(agents, draws);
    forall x | |order| >= SeedCount && x in order[..SeedCount]
      ensures 0 <= x < |units|
    {
      ShuffleKeepsMembers(agents, draws, x);
    }
    if |order| < SeedCount then Err(IndexError)
    else Ok(SetAlive(units, order[..SeedCount]))
  }

  /** The units whose `life_t0` is 1. */
  function LiveSet(units: seq<Unit>): set<int> {
    set i | 0 <= i < |units| && units[i].lifeT0 == 1
  }

  /** After seeding a population with no live unit, the live units are the chosen ones. */
  lemma SeededLiveSet(units: seq<Unit>, chosen: seq<AgentRef>)
    requires Covers(units, chosen)
    requires forall i :: 0 <= i < |units| ==> units[i].lifeT0 != 1
    ensures LiveSet(SetAlive(units, chosen)) == set k | 0 <= k < |chosen| :: chosen[k]
  {
    var seeded := SetAlive(units, chosen);
    var picked := set k | 0 <= k < |chosen| :: chosen[k];
    forall i | i in picked ensures i in LiveSet(seeded) {
      var k :| 0 <= k < |chosen| && chosen[k] == i;
      assert i in chosen;
    }
  }

  /** Seeding a population with no live unit from a list without repetitions gives exactly
      50 live units, whatever the draws. */
  lemma SeedMakesFiftyAlive(units: seq<Unit>, agents: seq<AgentRef>, draws: seq<nat>)
    requires Covers(units, agents) && Distinct(agents) && |agents| >= SeedCount
    requires forall i :: 0 <= i < |units| ==> units[i].lifeT0 != 1
    ensures Seed(units, agents, draws).Ok?
    ensures |LiveSet(Seed(units, agents, draws).value)| == SeedCount
  {
    var order := Shuffle(agents, draws);
    var chosen := order[..SeedCount];
    ShuffleKeepsDistinct(agents, draws);
    assert Distinct(chosen);
    DistinctCardinality(chosen);
    forall x | x in chosen ensures 0 <= x < |units| {
      ShuffleKeepsMembers(agents, draws, x);
    }
    SeededLiveSet(units, chosen);
  }

  /** The demo population: 100 distinct units, all dead, seeded from the list of all of
      them has exactly 50 live units for every outcome of the shuffle. */
  lemma DemoSeedHasFiftyAlive(draws: seq<nat>)
    ensures var units := seq(PopulationSize, _ => Unit(0, 0));
      var agents := seq(PopulationSize, i => i);
      Seed(units, agents, draws).Ok? && |LiveSet(Seed(units, agents, draws).value)| == SeedCount
  {
    var units := seq(PopulationSize, _ => Unit(0, 0));
    var agents := seq(PopulationSize, i => i);
    assert Distinct(agents);
    SeedMakesFiftyAlive(units, agents, draws);
  }

  /** With the corrected neighbourhood the live count does not depend on the order or the
      shuffle draws, so neither does the demo's rule. */
  lemma CountIgnoresOrder(env: Environment, units: seq<Unit>, self: AgentRef, agent: Agent,
                          order1: string, draws1: seq<nat>, order2: string, draws2: seq<nat>)
    requires MooreNeighbourhood(env, self, agent, "moore", 1, order1, draws1).Ok?
    ensures MooreNeighbourhood(env, self, agent, "moore", 1, order2, draws2).Ok?
    ensures LiveCount(units, MooreNeighbourhood(env, self, agent, "moore", 1, order1, draws1).value)
         == LiveCount(units, MooreNeighbourhood(env, self, agent, "moore", 1, order2, draws2).value)
  {
    OrderOnlyPermutes(env, self, agent, "moore", 1, order1, draws1, order2, draws2);
    LiveCountPermutation(units,
      MooreNeighbourhood(env, self, agent, "moore", 1, order1, draws1).value,
      MooreNeighbourhood(env, self, agent, "moore", 1, order2, draws2).value);
  }
}

=== FILE: grid.dfy ===
/** The environment grid (framework.py, class Environment): a `rows` x `columns` array of
    1-based cells, each an ordered list of agent references with a nominal capacity. */
module Grid {
  import opened Wrappers
  import opened Lists
  import opened Agents

  /** Object identity of an agent: cells hold references, not copies. */
  type AgentRef = int

  datatype Environment = Environment(
    capacity: int,
    endless: bool,
    rows: int,
    columns: int,
    grid: seq<seq<seq<AgentRef>>>)

  /** The array has the shape its constructor gave it. */
  predicate Valid(env: Environment) {
    && |env.grid| == RangeLength(env.rows)
    && forall i :: 0 <= i < |env.grid| ==> |env.grid[i]| == RangeLength(env.columns)
  }

  predicate InGrid(env: Environment, p: Position) {
    1 <= p.row <= env.rows && 1 <= p.col <= env.columns
  }

  /** The occupants of cell `p`; a position outside the array has none. */
  function CellAt(env: Environment, p: Position): seq<AgentRef> {
    if 1 <= p.row <= |env.grid| && 1 <= p.col <= |env.grid[p.row - 1]| then env.grid[p.row - 1][p.col - 1] else []
  }

  /** A cell whose occupancy is strictly below the capacity. */
  predicate Free(env: Environment, p: Position)
    requires Valid(env) && InGrid(env, p)
  {
    |CellAt(env, p)| < env.capacity
  }

  /** `Environment(capa_cell, endless, rows, columns)`: every cell starts empty. */
  function NewEnvironment(capacity: int, endless: bool, rows: int, columns: int): (env: Environment)
    ensures Valid(env)
    ensures env.capacity == capacity && env.endless == endless
    ensures env.rows == rows && env.columns == columns
    ensures |env.grid| == RangeLength(rows)
    ensures forall p :: InGrid(env, p) ==> CellAt(env, p) == []
  {
    Environment(capacity, endless, rows, columns,
      seq(RangeLength(rows), _ => seq(RangeLength(columns), _ => [])))
  }

  /** `get_cell(row, col)`, which reads `Array[row-1][col-1]` with Python indexing: inside the
      grid it is cell `(row, col)`; indices down to `-rows`/`-columns` count from the far edge;
      anything further out raises IndexError. */
  function GetCell(env: Environment, row: int, col: int): (r: Result<seq<AgentRef>>)
    requires Valid(env)
    ensures InGrid(env, Position(row, col)) ==> r == Ok(CellAt(env, Position(row, col)))
    ensures r.Ok? <==>
      && 1 - RangeLength(env.rows) <= row <= RangeLength(env.rows)
      && 1 - RangeLength(env.columns) <= col <= RangeLength(env.columns)
    ensures r.Ok? ==>
      r.value == env.grid[FromEnd(row - 1, RangeLength(env.rows))][FromEnd(col - 1, RangeLength(env.columns))]
  {
    var line :- PyIndex(env.grid, row - 1);
    PyIndex(line, col - 1)
  }

  /** The `while True` loop of `add_agent`, driven by a finite stream of `random.choice`
      draws: the index of the first drawn cell that is free, or None when the stream ends
      before the loop would exit. */
  function FirstFreeDraw(env: Environment, draws: seq<Position>): (k: Option<nat>)
    requires Valid(env)
    requires forall i :: 0 <= i < |draws| ==> InGrid(env, draws[i])
    ensures k.Some? ==> k.value < |draws| && Free(env, draws[k.value])
    ensures k.Some? ==> forall j :: 0 <= j < k.value ==> !Free(env, draws[j])
    ensures k.None? ==> forall j :: 0 <= j < |draws| ==> !Free(env, draws[j])
  {
    if |draws| == 0 then None
    else if Free(env, draws[0]) then Some(0)
    else
      match FirstFreeDraw(env, draws[1..])
      case None => None
      case Some(k) => Some(k + 1)
  }

  /** On a grid with no free cell, no stream of draws ever lets the placement loop exit. */
  lemma FullGridNeverExits(env: Environment, draws: seq<Position>)
    requires Valid(env)
    requires forall i :: 0 <= i < |draws| ==> InGrid(env, draws[i])
    requires forall p :: InGrid(env, p) ==> !Free(env, p)
    ensures FirstFreeDraw(env, draws) == None
  {
  }

  /** The grid after an insertion: same configuration and shape, `a` appended to cell `p`,
      every other cell untouched. */
  ghost predicate Appended(env: Environment, env': Environment, p: Position, a: AgentRef) {
    && Valid(env) && Valid(env') && InGrid(env, p)
    && env'.capacity == env.capacity && env'.endless == env.endless
    && env'.rows == env.rows && env'.columns == env.columns
    && CellAt(env', p) == CellAt(env, p) + [a]
    && forall q :: InGrid(env, q) && q != p ==> CellAt(env', q) == CellAt(env, q)
  }

  /** The result of `add_agent`: the changed grid and the agent object with its new `Row`/`Col`. */
  datatype Placement = Placement(env: Environment, agent: Agent)

  /** `Array[row-1][col-1].append(agent)` followed by setting `agent.Row`/`agent.Col`. */
  function Place(env: Environment, a: AgentRef, agent: Agent, p: Position): (r: Placement)
    requires Valid(env) && InGrid(env, p)
    ensures Appended(env, r.env, p, a)
    ensures r.agent == agent.(position := Some(p))
  {
    var line := env.grid[p.row - 1];
    var env' := env.(grid := env.grid[p.row - 1 := line[p.col - 1 := line[p.col - 1] + [a]]]);
    Placement(env', agent.(position := Some(p)))
  }

  /** `add_agent(agent, row, col)`. With both coordinates positive the agent goes into that
      cell whatever its occupancy (IndexError past the far edge); otherwise cells are drawn
      at random until a free one comes up (IndexError when a dimension is empty). The
      precondition says the draw stream reaches a free cell, i.e. that the loop ends. */
  function AddAgent(env: Environment, a: AgentRef, agent: Agent, row: int, col: int, draws: seq<Position>)
    : (r: Result<Placement>)
    requires Valid(env)
    requires forall i :: 0 <= i < |draws| ==> InGrid(env, draws[i])
    requires (row > 0 && col > 0) || env.rows < 1 || env.columns < 1 || FirstFreeDraw(env, draws).Some?
    ensures r.Ok? ==> r.value.agent.position.Some?
    ensures r.Ok? ==> r.value.agent == agent.(position := r.value.agent.position)
    ensures r.Ok? ==> Appended(env, r.value.env, r.value.agent.position.value, a)
    ensures row > 0 && col > 0 ==> (r.Ok? <==> row <= env.rows && col <= env.columns)
    ensures row > 0 && col > 0 && r.Ok? ==> r.value.agent.position == Some(Position(row, col))
    ensures !(row > 0 && col > 0) ==> (r.Ok? <==> env.rows >= 1 && env.columns >= 1)
    ensures !(row > 0 && col > 0) && r.Ok? ==>
      var p := r.value.agent.position.value;
      && Free(env, p)
      && exists k :: 0 <= k < |draws| && draws[k] == p && forall j :: 0 <= j < k ==> !Free(env, draws[j])
  {
    if row > 0 && col > 0 then
      // `Array[row-1]` and `[col-1]` are non-negative indices here: past the end is IndexError.
      if row <= |env.grid| && col <= |env.grid[row - 1]| then
        Ok(Place(env, a, agent, Position(row, col)))
      else
        Err(IndexError)
    else if env.rows < 1 || env.columns < 1 then
      Err(IndexError)
    else
      var k := FirstFreeDraw(env, draws).value;
      Ok(Place(env, a, agent, draws[k]))
  }

  /** Explicit placement never consults the capacity: a full cell still takes the agent and
      ends up over capacity. */
  lemma ExplicitPlacementIgnoresCapacity(env: Environment, a: AgentRef, agent: Agent, p: Position)
    requires Valid(env) && InGrid(env, p)
    requires |CellAt(env, p)| >= env.capacity
    ensures AddAgent(env, a, agent, p.row, p.col, []).Ok?
    ensures |CellAt(AddAgent(env, a, agent, p.row, p.col, []).value.env, p)| > env.capacity
  {
  }

  /** Adding an agent a second time does not take it out of its first cell: the reference then
      sits in both cells. */
  lemma AddingTwiceLeavesTwoCopies(env: Environment, a: AgentRef, agent: Agent, p: Position, q: Position)
    requires Valid(env) && InGrid(env, p) && InGrid(env, q) && p != q
    ensures AddAgent(env, a, agent, p.row, p.col, []).Ok?
    ensures
      var first := AddAgent(env, a, agent, p.row, p.col, []).value;
      var second := AddAgent(first.env, a, first.agent, q.row, q.col, []);
      && second.Ok?
      && a in CellAt(second.value.env, p)
      && a in CellAt(second.value.env, q)
      && second.value.agent.position == Some(q)
  {
    var first := AddAgent(env, a, agent, p.row, p.col, []).value;
    var second := AddAgent(first.env, a, first.agent, q.row, q.col, []).value;
    assert CellAt(second.env, p) == CellAt(first.env, p);
    assert CellAt(second.env, q) == CellAt(first.env, q) + [a];
    assert CellAt(first.env, p) == CellAt(env, p) + [a];
  }
}

=== FILE: lists.dfy ===
/** Python list and string semantics the grid code relies on: indexing with negative
    indices, the length of `range(n)`, the substring test `p in s`, and filtering out
    one object by identity. */
module Lists {
  import opened Wrappers

  /** Number of elements of `range(n)`: zero for a negative bound. */
  function RangeLength(n: int): (k: nat)
    ensures n >= 0 ==> k == n
    ensures n < 0 ==> k == 0
  {
    if n < 0 then 0 else n
  }

  /** The position a Python index denotes in a list of length `n`: negative indices count
      back from the end. */
  function FromEnd(i: int, n: int): int {
    if i < 0 then n + i else i
  }

  /** `s[i]` on a Python list: indices `-|s| <= i < 0` count from the end, anything else
      raises IndexError. */
  function PyIndex<T>(s: seq<T>, i: int): (r: Result<T>)
    ensures r.Ok? <==> -|s| <= i < |s|
    ensures r.Ok? ==> 0 <= FromEnd(i, |s|) < |s| && r.value == s[FromEnd(i, |s|)]
  {
    if 0 <= i < |s| then Ok(s[i])
    else if -|s| <= i < 0 then Ok(s[|s| + i])
    else Err(IndexError)
  }

  /** `p in s` for Python strings: `p` occurs as a contiguous piece of `s`. */
  predicate IsSubstring(p: string, s: string) {
    p <= s || (|s| > 0 && IsSubstring(p, s[1..]))
  }

  /** The elements of `s` other than `x`, in order (`for o in s: if o == x: pass else: append`). */
  function Without<T(==)>(s: seq<T>, x: T): (r: seq<T>)
    ensures |r| <= |s|
    ensures x !in r
  {
    if |s| == 0 then []
    else (if s[0] == x then [] else [s[0]]) + Without(s[1..], x)
  }

  /** Filtering removes every copy of `x` and keeps every other element with its multiplicity. */
  lemma {:induction false} WithoutCounts<T>(s: seq<T>, x: T)
    ensures multiset(Without(s, x)) == multiset(s)[x := 0]
  {
    if |s| > 0 {
      var head := if s[0] == x then [] else [s[0]];
      WithoutCounts(s[1..], x);
      assert Without(s, x) == head + Without(s[1..], x);
      assert s == [s[0]] + s[1..];
      assert multiset(s) == multiset{s[0]} + multiset(s[1..]);
    }
  }

  /** An element survives the filter exactly when it is in `s` and is not `x`. */
  lemma WithoutMembers<T>(s: seq<T>, x: T, y: T)
    ensures y in Without(s, x) <==> y in s && y != x
  {
    WithoutCounts(s, x);
    assert y in Without(s, x) <==> y in multiset(Without(s, x));
    assert y in s <==> y in multiset(s);
  }

  /** Removing the element at index `j` removes one copy of it. */
  lemma RemoveAt<T>(s: seq<T>, j: nat)
    requires j < |s|
    ensures multiset(s[..j] + s[j + 1..]) == multiset(s) - multiset{s[j]}
  {
    assert s == s[..j] + [s[j]] + s[j + 1..];
  }

  /** No element occurs twice. */
  predicate Distinct<T(==)>(s: seq<T>) {
    forall i, j :: 0 <= i < j < |s| ==> s[i] != s[j]
  }

  /** In a sequence without repetitions every element occurs at most once. */
  lemma {:induction false} DistinctCount<T>(s: seq<T>, x: T)
    requires Distinct(s)
    ensures multiset(s)[x] <= 1
  {
    if |s| > 0 {
      var n := |s| - 1;
      assert s == s[..n] + [s[n]];
      assert Distinct(s[..n]);
      DistinctCount(s[..n], x);
      if s[n] == x {
        assert x !in s[..n];
      }
    }
  }

  /** An element found at two different indices occurs at least twice. */
  lemma RepeatCount<T>(s: seq<T>, p: nat, q: nat)
    requires p < q < |s| && s[p] == s[q]
    ensures multiset(s)[s[p]] >= 2
  {
    assert s == s[..q] + s[q..];
    assert s[p] in s[..q];
    assert s[q] in s[q..];
  }

  /** A reordering of a sequence without repetitions has no repetitions either. */
  lemma DistinctPermutation<T>(a: seq<T>, b: seq<T>)
    requires Distinct(a) && multiset(a) == multiset(b)
    ensures Distinct(b)
  {
    forall p, q | 0 <= p < q < |b|
      ensures b[p] != b[q]
    {
      if b[p] == b[q] {
        RepeatCount(b, p, q);
        DistinctCount(a, b[p]);
        assert false;
      }
    }
  }

  /** A sequence without repetitions has as many distinct elements as it is long. */
  lemma {:induction false} DistinctCardinality<T>(s: seq<T>)
    requires Distinct(s)
    ensures |set k | 0 <= k < |s| :: s[k]| == |s|
  {
    if |s| > 0 {
      var t := s[..|s| - 1];
      assert Distinct(t);
      DistinctCardinality(t);
      var st := set k | 0 <= k < |t| :: t[k];
      var ss := set k | 0 <= k < |s| :: s[k];
      assert ss == st + {s[|s| - 1]};
      assert s[|s| - 1] !in st;
    }
  }
}

=== FILE: moore.dfy ===
/** The Moore neighbourhood `get_neighbourhood` evidently means to compute: every cell within
    Chebyshev distance `radius` of the agent (offsets `-radius .. radius` on both axes, each
    offset wrapped on its own on an endless grid), the agent's own cell counted only when
    cells hold more than one agent and then without the agent, and the collected list
    returned, shuffled when the order is "random". When the window is wider than an endless
    grid, wrapped offsets revisit cells and list their occupants once per visit; when the
    radius also reaches the row or the column count, the revisited cells include the agent's
    own cell, and the agent is then listed as its own neighbour. */
module Moore {
  import opened Wrappers
  import opened Lists
  import opened Agents
  import opened Grid
  import opened Windows
  import opened Shuffling
  import opened Neighbourhood

  /** The corrected `get_neighbourhood(agent, type, radius, order)`. The shuffle draws come
      from `draws`; an agent that sits outside the grid has no cell to look around and is
      reported as IndexError. */
  function MooreNeighbourhood(env: Environment, self: AgentRef, agent: Agent, kind: string, radius: int,
                              order: string, draws: seq<nat>): (r: Result<seq<AgentRef>>)
    ensures kind != "moore" ==> r == Ok([])
    ensures kind == "moore" && agent.position.None? ==> r == Err(AttributeError)
    ensures kind == "moore" && agent.position.Some? ==> (r.Ok? <==> InGrid(env, agent.position.value))
    ensures kind == "moore" && agent.position.Some? && !InGrid(env, agent.position.value) ==> r == Err(IndexError)
    ensures kind == "moore" && r.Ok? ==>
      multiset(r.value) == multiset(Window(env, self, agent.position.value, -radius, radius + 1))
    ensures kind == "moore" && r.Ok? && EffectiveOrder(order) != "random" ==>
      r.value == Window(env, self, agent.position.value, -radius, radius + 1)
  {
    if kind != "moore" then Ok([])
    else
      match agent.position
      case None => Err(AttributeError)
      case Some(at) =>
        if !InGrid(env, at) then Err(IndexError)
        else
          var found := Window(env, self, at, -radius, radius + 1);
          Ok(if EffectiveOrder(order) == "random" then Shuffle(found, draws) else found)
  }

  /** `q` lies within Chebyshev distance `radius` of `p`. */
  predicate Near(p: Position, q: Position, radius: int) {
    -radius <= q.row - p.row <= radius && -radius <= q.col - p.col <= radius
  }

  /** `b` is an agent of cell `q` that counts as a neighbour of `self` at `at`: any occupant of
      another cell, and an occupant of the own cell other than `self` when cells hold more than
      one agent. */
  predicate Sees(env: Environment, self: AgentRef, at: Position, q: Position, b: AgentRef) {
    b in CellAt(env, q) && (q != at || (env.capacity > 1 && b != self))
  }

  /** On a bounded grid, offset `(dr, dc)` contributes exactly the neighbours in the cell it
      names. */
  lemma BoundedContribution(env: Environment, self: AgentRef, at: Position, dr: int, dc: int, b: AgentRef)
    requires !env.endless && InGrid(env, at)
    ensures var q := Position(at.row + dr, at.col + dc);
      b in Contribution(env, self, at, dr, dc) <==> InGrid(env, q) && Sees(env, self, at, q, b)
  {
    var q := Position(at.row + dr, at.col + dc);
    assert Target(env, at, dr, dc) == q;
    if dr == 0 && dc == 0 {
      WithoutMembers(CellAt(env, at), self, b);
    }
  }

  /** On a bounded grid an agent of the symmetric window is shown by a cell within
      distance `radius`. */
  lemma WindowAgentHasCell(env: Environment, self: AgentRef, at: Position, radius: int, b: AgentRef)
    returns (q: Position)
    requires !env.endless && InGrid(env, at)
    requires b in Window(env, self, at, -radius, radius + 1)
    ensures InGrid(env, q) && Near(at, q, radius) && Sees(env, self, at, q, b)
  {
    var r, c := OffsetOf(env, self, at, -radius, -radius, radius + 1, b);
    q := Position(at.row + r, at.col + c);
    assert InGrid(env, q) && Sees(env, self, at, q, b) by {
      BoundedContribution(env, self, at, r, c, b);
    }
  }

  /** On a bounded grid a cell's neighbour is contributed by the offset leading to that cell. */
  lemma CellContributes(env: Environment, self: AgentRef, at: Position, q: Position, b: AgentRef)
    requires !env.endless && InGrid(env, at)
    requires InGrid(env, q) && Sees(env, self, at, q, b)
    ensures b in Contribution(env, self, at, q.row - at.row, q.col - at.col)
  {
    assert Position(at.row + (q.row - at.row), at.col + (q.col - at.col)) == q;
    BoundedContribution(env, self, at, q.row - at.row, q.col - at.col, b);
  }

  /** On a bounded grid an agent shown by a cell within distance `radius` is in the
      symmetric window. */
  lemma CellAgentInWindow(env: Environment, self: AgentRef, at: Position, radius: int, q: Position, b: AgentRef)
    requires !env.endless && InGrid(env, at)
    requires InGrid(env, q) && Near(at, q, radius) && Sees(env, self, at, q, b)
    ensures b in Window(env, self, at, -radius, radius + 1)
  {
    CellContributes(env, self, at, q, b);
    OffsetInWindow(env, self, at, -radius, radius + 1, q.row - at.row, q.col - at.col, b);
  }

  /** On a bounded grid the corrected neighbourhood holds exactly the agents that some cell
      within distance `radius` shows, whatever the order and the draws. */
  lemma BoundedMembers(env: Environment, self: AgentRef, agent: Agent, radius: int, order: string, draws: seq<nat>, b: AgentRef)
    requires !env.endless
    requires agent.position.Some? && InGrid(env, agent.position.value)
    ensures MooreNeighbourhood(env, self, agent, "moore", radius, order, draws).Ok?
    ensures var at := agent.position.value;
      b in MooreNeighbourhood(env, self, agent, "moore", radius, order, draws).value <==>
      exists q :: InGrid(env, q) && Near(at, q, radius) && Sees(env, self, at, q, b)
  {
    var at := agent.position.value;
    var found := MooreNeighbourhood(env, self, agent, "moore", radius, order, draws).value;
    var window := Window(env, self, at, -radius, radius + 1);
    assert b in found <==> b in window by {
      assert multiset(found) == multiset(window);
      assert b in found <==> b in multiset(found);
      assert b in window <==> b in multiset(window);
    }
    if b in window {
      var q := WindowAgentHasCell(env, self, at, radius, b);
    }
    if exists q :: InGrid(env, q) && Near(at, q, radius) && Sees(env, self, at, q, b) {
      var q :| InGrid(env, q) && Near(at, q, radius) && Sees(env, self, at, q, b);
      CellAgentInWindow(env, self, at, radius, q, b);
    }
  }

  /** A non-zero offset that is shorter than the grid along each axis never leads back to the
      agent's own cell; on a bounded grid no non-zero offset does. */
  lemma OffsetAvoidsOwnCell(env: Environment, at: Position, dr: int, dc: int)
    requires InGrid(env, at)
    requires !env.endless || (-env.rows < dr < env.rows && -env.columns < dc < env.columns)
    requires dr != 0 || dc != 0
    ensures Target(env, at, dr, dc) != at
  {
  }

  /** The origin offset never contributes the querying agent. */
  lemma OriginOmitsSelf(env: Environment, self: AgentRef, at: Position)
    ensures self !in Contribution(env, self, at, 0, 0)
  {
    WithoutMembers(CellAt(env, at), self, self);
  }

  /** A non-origin offset contributes occupants of the in-grid cell it lands on. */
  lemma OffsetContribution(env: Environment, self: AgentRef, at: Position, dr: int, dc: int, b: AgentRef)
    requires dr != 0 || dc != 0
    requires b in Contribution(env, self, at, dr, dc)
    ensures InGrid(env, Target(env, at, dr, dc)) && b in CellAt(env, Target(env, at, dr, dc))
  {
  }

  /** When the radius is below both dimensions, an agent of the symmetric window that is the
      querying agent itself was contributed by another cell that holds it. */
  lemma SelfFromOtherCell(env: Environment, self: AgentRef, at: Position, radius: int) returns (q: Position)
    requires InGrid(env, at)
    requires !env.endless || (radius < env.rows && radius < env.columns)
    requires self in Window(env, self, at, -radius, radius + 1)
    ensures InGrid(env, q) && q != at && self in CellAt(env, q)
  {
    var r, c := OffsetOf(env, self, at, -radius, -radius, radius + 1, self);
    assert r != 0 || c != 0 by {
      OriginOmitsSelf(env, self, at);
    }
    q := Target(env, at, r, c);
    assert InGrid(env, q) && self in CellAt(env, q) by {
      OffsetContribution(env, self, at, r, c, self);
    }
    assert q != at by {
      OffsetAvoidsOwnCell(env, at, r, c);
    }
  }

  /** When the radius is below both dimensions, the agent can appear among its own neighbours
      only through another cell that also holds it: its own cell never contributes it. */
  lemma SelfOnlyFromOtherCells(env: Environment, self: AgentRef, agent: Agent, radius: int,
                               order: string, draws: seq<nat>) returns (q: Position)
    requires agent.position.Some? && InGrid(env, agent.position.value)
    requires !env.endless || (radius < env.rows && radius < env.columns)
    requires self in MooreNeighbourhood(env, self, agent, "moore", radius, order, draws).value
    ensures InGrid(env, q) && q != agent.position.value && self in CellAt(env, q)
  {
    var at := agent.position.value;
    var found := MooreNeighbourhood(env, self, agent, "moore", radius, order, draws).value;
    var window := Window(env, self, at, -radius, radius + 1);
    assert self in window by {
      assert multiset(found) == multiset(window);
      assert self in multiset(found);
    }
    q := SelfFromOtherCell(env, self, at, radius);
  }

  /** On an endless grid no offset up to the grid size falls off: every non-origin offset
      contributes the whole cell it wraps to, and that cell is inside the grid. */
  lemma EndlessOffsetsLand(env: Environment, self: AgentRef, at: Position, dr: int, dc: int)
    requires env.endless && InGrid(env, at)
    requires -env.rows <= dr <= env.rows && -env.columns <= dc <= env.columns
    requires dr != 0 || dc != 0
    ensures InGrid(env, Target(env, at, dr, dc))
    ensures Contribution(env, self, at, dr, dc) == CellAt(env, Target(env, at, dr, dc))
  {
  }

  /** The order never changes which agents the corrected neighbourhood holds, nor how often:
      two calls that differ only in order and draws are reorderings of each other. */
  lemma OrderOnlyPermutes(env: Environment, self: AgentRef, agent: Agent, kind: string, radius: int,
                          order1: string, draws1: seq<nat>, order2: string, draws2: seq<nat>)
    ensures var r1 := MooreNeighbourhood(env, self, agent, kind, radius, order1, draws1);
      var r2 := MooreNeighbourhood(env, self, agent, kind, radius, order2, draws2);
      r1.Ok? == r2.Ok? && (r1.Ok? ==> multiset(r1.value) == multiset(r2.value))
  {
  }

  /** Every ordering of the neighbours is a possible result of a "random" call. */
  lemma EveryOrderPossible(env: Environment, self: AgentRef, agent: Agent, radius: int, t: seq<AgentRef>)
    requires agent.position.Some? && InGrid(env, agent.position.value)
    requires multiset(t) == multiset(Window(env, self, agent.position.value, -radius, radius + 1))
    ensures exists draws :: MooreNeighbourhood(env, self, agent, "moore", radius, "random", draws) == Ok(t)
  {
    var window := Window(env, self, agent.position.value, -radius, radius + 1);
    EveryOrderReachable(window, t);
    var draws :| Shuffle(window, draws) == t;
    assert EffectiveOrder("random") == "random";
    assert MooreNeighbourhood(env, self, agent, "moore", radius, "random", draws) == Ok(t);
  }

  /** A bounded 3 x 3 grid holding agent 0 in the centre and agent 1 in the lower-right corner. */
  const CornerGrid := Environment(1, false, 3, 3, [[[], [], []], [[], [0], []], [[], [], [1]]])

  /** The as-written loops run over `range(Row - radius, Row + radius)`, so offset `+radius` is
      never visited: agent 1, diagonally adjacent to agent 0, is not found, while the
      symmetric window finds it. */
  lemma HalfOpenWindowMissesFarSide()
    ensures Collect(CornerGrid, 0, Agent(0, None, Some(Position(2, 2))), "moore", 1) == Ok([])
    ensures MooreNeighbourhood(CornerGrid, 0, Agent(0, None, Some(Position(2, 2))), "moore", 1, "random", []).Ok?
    ensures MooreNeighbourhood(CornerGrid, 0, Agent(0, None, Some(Position(2, 2))), "moore", 1, "random", []).value == [1]
  {
  }

  /** A bounded 3 x 3 grid holding agent 1 in the upper-left corner and agent 0 in the centre. */
  const UpperGrid := Environment(1, false, 3, 3, [[[1], [], []], [[], [0], []], [[], [], []]])

  /** The as-written method collects agent 1 but hands back `None`, the value of
      `random.shuffle`; the corrected member returns the collected neighbour. */
  lemma CollectedListIsDiscarded()
    ensures Collect(UpperGrid, 0, Agent(0, None, Some(Position(2, 2))), "moore", 1).Ok?
    ensures Collect(UpperGrid, 0, Agent(0, None, Some(Position(2, 2))), "moore", 1).value == [1]
    ensures GetNeighbourhood(UpperGrid, 0, Agent(0, None, Some(Position(2, 2))), "moore", 1, "random") == Ok(None)
    ensures MooreNeighbourhood(UpperGrid, 0, Agent(0, None, Some(Position(2, 2))), "moore", 1, "random", []) == Ok([1])
  {
  }

  /** An endless 1 x 3 grid, two agents per cell, agent 0 in the middle cell. */
  const RingGrid := Environment(2, true, 1, 3, [[[], [0], []]])

  /** On a grid with no more rows than the radius the wrapped `row` leaks into the next column:
      offset `(-1, 0)` wraps onto the agent's own row, the loop then takes it for the origin
      cell and filters agent 0 out, while wrapping that offset on its own shows agent 0's
      cell in full. */
  lemma RowCarryTurnsOffsetIntoOrigin()
    ensures Collect(RingGrid, 0, Agent(0, None, Some(Position(1, 2))), "moore", 1) == Ok([])
    ensures Window(RingGrid, 0, Position(1, 2), -1, 1) == [0]
  {
  }

  /** On the ring every offset of radius 1 lands in row 1; only the two vertical offsets
      land on agent 0's cell, and the origin offset filters agent 0 out. */
  lemma RingContribution(dr: int, dc: int)
    requires -1 <= dr <= 1 && -1 <= dc <= 1
    ensures Contribution(RingGrid, 0, Position(1, 2), dr, dc) == if dc == 0 && dr != 0 then [0] else []
  {
    if dr == 0 && dc == 0 {
      assert Without([0], 0) == [];
    } else {
      assert Target(RingGrid, Position(1, 2), dr, dc) == Position(1, 2 + dc);
    }
  }

  /** With the radius reaching the ring's single row, offsets `(-1, 0)` and `(1, 0)` both wrap onto the
      agent's own cell: the symmetric window lists agent 0 twice. */
  lemma SmallRingWindow()
    ensures Window(RingGrid, 0, Position(1, 2), -1, 2) == [0, 0]
  {
    var p := Position(1, 2);
    forall dr, dc | -1 <= dr <= 1 && -1 <= dc <= 1
      ensures Contribution(RingGrid, 0, p, dr, dc) == if dc == 0 && dr != 0 then [0] else []
    {
      RingContribution(dr, dc);
    }
    assert WindowRow(RingGrid, 0, p, -1, -1, 2) == [] + [0] + [];
    assert WindowRow(RingGrid, 0, p, 0, -1, 2) == [];
    assert WindowRow(RingGrid, 0, p, 1, -1, 2) == [] + [0] + [];
  }

  /** With an empty draw stream the corrected method returns the window in scan order. */
  lemma NoDrawsKeepScanOrder(env: Environment, self: AgentRef, agent: Agent, radius: int, order: string)
    requires agent.position.Some? && InGrid(env, agent.position.value)
    ensures MooreNeighbourhood(env, self, agent, "moore", radius, order, [])
         == Ok(Window(env, self, agent.position.value, -radius, radius + 1))
  {
    ShuffleNoDraws(Window(env, self, agent.position.value, -radius, radius + 1));
  }

  /** On that ring the corrected method lists agent 0 twice as its own neighbour. */
  lemma SmallRingListsSelf()
    ensures MooreNeighbourhood(RingGrid, 0, Agent(0, None, Some(Position(1, 2))), "moore", 1, "random", []) == Ok([0, 0])
  {
    NoDrawsKeepScanOrder(RingGrid, 0, Agent(0, None, Some(Position(1, 2))), 1, "random");
    SmallRingWindow();
  }

  /** An agent that was built but never placed sits at the unassigned position `(0, 0)`. With
      radius 1 on a bounded grid every offset but the origin falls off the grid, and the
      origin branch reads `Array[-1][-1]`: the as-written loops report the occupants of the
      far corner cell `(rows, columns)` as neighbours. The corrected method refuses the
      off-grid agent. */
  lemma UnplacedAgentSeesFarCorner(env: Environment, self: AgentRef, agent: Agent, order: string, draws: seq<nat>)
    requires Valid(env) && !env.endless && env.rows >= 1 && env.columns >= 1
    requires agent.position == Some(Unassigned)
    ensures Collect(env, self, agent, "moore", 1)
         == Ok(if env.capacity > 1 then Without(CellAt(env, Position(env.rows, env.columns)), self) else [])
    ensures MooreNeighbourhood(env, self, agent, "moore", 1, order, draws) == Err(IndexError)
  {
    var at := Unassigned;
    var origin := OriginCell(env, self, 0, 0);
    assert GetCell(env, 0, 0) == Ok(CellAt(env, Position(env.rows, env.columns)));
    assert origin.Ok?;
    // Row offset -1: both cells lie above the grid.
    assert Landing(env, -1, -1) == [] && Landing(env, -1, 0) == [];
    assert ScanRow(env, self, at, -1, 1, 1) == Ok([]);
    var none: seq<AgentRef> := [];
    assert none + none == none;
    assert ScanRow(env, self, at, -1, 0, 1) == Ok([]);
    assert ScanRow(env, self, at, -1, -1, 1) == Ok([]);
    // Row offset 0: cell (0, -1) lies left of the grid, then the origin branch.
    assert Landing(env, 0, -1) == [];
    assert origin.value + [] == origin.value && [] + origin.value == origin.value;
    assert ScanRow(env, self, at, 0, 0, 1) == origin;
    assert ScanRow(env, self, at, 0, -1, 1) == origin;
    assert ScanRows(env, self, at, 0, 1) == origin;
    assert ScanRows(env, self, at, -1, 1) == origin;
  }
}

=== FILE: neighbourhood.dfy ===
/** `Environment.get_neighbourhood` exactly as framework.py writes it: the nested loops over
    `range(Row - radius, Row + radius)` x `range(Col - radius, Col + radius)`, the origin-cell
    rule, the wrap step that overwrites the outer loop's `row`, the coercion of `order`, and
    the discarded result of `random.shuffle`. */
module Neighbourhood {
  import opened Wrappers
  import opened Lists
  import opened Agents
  import opened Grid
  import opened Windows

  /** `order` after the coercion at the top of the method: unchanged when it mentions
      "random", otherwise replaced by "random". */
  function EffectiveOrder(order: string): (o: string)
    ensures IsSubstring("random", o)
    ensures IsSubstring("random", order) ==> o == order
    ensures !IsSubstring("random", order) ==> o == "random"
  {
    assert "random" <= "random";
    if !IsSubstring("random", order) then "random" else order
  }

  /** Coercing an order a second time changes nothing. */
  lemma EffectiveOrderIdempotent(order: string)
    ensures EffectiveOrder(EffectiveOrder(order)) == EffectiveOrder(order)
  {
  }

  /** The test is a substring test, not an equality: an order that merely mentions "random"
      survives the coercion, any other order is replaced. */
  lemma EffectiveOrderExamples()
    ensures EffectiveOrder("sorted") == "random"
    ensures EffectiveOrder("") == "random"
    ensures EffectiveOrder("random") == "random"
    ensures EffectiveOrder("nonrandom") == "nonrandom"
  {
    assert "random" <= "nonrandom"[3..];
  }

  /** The origin cell, `Array[row-1][col-1]` with Python indexing: its occupants other than
      the querying agent when cells hold more than one agent, and nothing otherwise. */
  function OriginCell(env: Environment, self: AgentRef, row: int, col: int): (r: Result<seq<AgentRef>>)
    requires Valid(env)
    ensures env.capacity <= 1 ==> r == Ok([])
    ensures env.capacity > 1 && InGrid(env, Position(row, col)) ==>
      r == Ok(Without(CellAt(env, Position(row, col)), self))
    ensures r.Err? <==> env.capacity > 1 && GetCell(env, row, col).Err?
    ensures env.capacity > 1 && r.Ok? ==> r.value == Without(GetCell(env, row, col).value, self)
  {
    if env.capacity > 1 then
      var cell :- GetCell(env, row, col);
      Ok(Without(cell, self))
    else
      Ok([])
  }

  /** An agent recorded at `(0, 0)` reads `Array[-1][-1]`: the origin cell of a 3 x 3 grid is
      then the far corner, whose occupant is collected. */
  lemma OriginCellReadsFarCorner()
    ensures OriginCell(Environment(2, false, 3, 3, [[[], [], []], [[], [], []], [[], [], [5]]]), 0, 0, 0) == Ok([5])
  {
    var env := Environment(2, false, 3, 3, [[[], [], []], [[], [], []], [[], [], [5]]]);
    assert GetCell(env, 0, 0) == Ok([5]);
    assert Without([5], 0) == [5];
  }

  /** Appending the contributions of two consecutive stretches of the loop: the first
      exception raised wins. */
  function Join(first: Result<seq<AgentRef>>, rest: Result<seq<AgentRef>>): (r: Result<seq<AgentRef>>)
    ensures first.Ok? && rest.Ok? ==> r == Ok(first.value + rest.value)
    ensures first.Err? ==> r == first
    ensures first.Ok? && rest.Err? ==> r == rest
  {
    var here :- first;
    var more :- rest;
    Ok(here + more)
  }

  /** The inner loop over `col` in `[col, hi)` with the current value of `row`. A non-origin
      step on an endless grid wraps `row` in place, and the wrapped value is the one the
      remaining columns see. */
  function ScanRow(env: Environment, self: AgentRef, at: Position, row: int, col: int, hi: int)
    : Result<seq<AgentRef>>
    requires Valid(env)
    decreases hi - col
  {
    if col >= hi then Ok([])
    else if row == at.row && col == at.col then
      Join(OriginCell(env, self, row, col), ScanRow(env, self, at, row, col + 1, hi))
    else
      // `if self.Endless == True:` rewrites `row` itself, not a copy.
      var row' := Norm(env.endless, row, env.rows);
      var col' := Norm(env.endless, col, env.columns);
      Join(Ok(Landing(env, row', col')), ScanRow(env, self, at, row', col + 1, hi))
  }

  /** The outer loop over `row` in `[row, at.row + radius)`; each iteration starts the inner
      loop from the fresh loop value. */
  function ScanRows(env: Environment, self: AgentRef, at: Position, row: int, radius: int)
    : Result<seq<AgentRef>>
    requires Valid(env)
    decreases at.row + radius - row
  {
    if row >= at.row + radius then Ok([])
    else
      Join(ScanRow(env, self, at, row, at.col - radius, at.col + radius), ScanRows(env, self, at, row + 1, radius))
  }

  /** The list `ls_neighbourhood` holds just before the shuffle. Only "moore" is implemented:
      "neumann" and every other type collect nothing, and an agent without `Row`/`Col`
      raises AttributeError. */
  function Collect(env: Environment, self: AgentRef, agent: Agent, kind: string, radius: int)
    : (r: Result<seq<AgentRef>>)
    requires Valid(env)
    ensures kind != "moore" ==> r == Ok([])
    ensures kind == "moore" && agent.position.None? ==> r == Err(AttributeError)
    ensures kind == "moore" && radius <= 0 && agent.position.Some? ==> r == Ok([])
  {
    if kind == "moore" then
      match agent.position
      case None => Err(AttributeError)
      case Some(at) => ScanRows(env, self, at, at.row - radius, radius)
    else
      Ok([])
  }

  /** `get_neighbourhood(agent, type, radius, order)` as written: the collected list is shuffled
      in place, the variable is overwritten with the `None` that `random.shuffle` returns, and
      the method has no `return`, so every call that does not raise yields `None`. */
  function GetNeighbourhood(env: Environment, self: AgentRef, agent: Agent, kind: string, radius: int, order: string)
    : (r: Result<Option<seq<AgentRef>>>)
    requires Valid(env)
    ensures r.Ok? <==> Collect(env, self, agent, kind, radius).Ok?
    ensures r.Ok? ==> r.value == None
  {
    var _ := EffectiveOrder(order);
    var _ :- Collect(env, self, agent, kind, radius);
    Ok(None)
  }

  /** Row offsets that keep the row state of the inner loop in step with the reference
      window: wrapping the row a second time changes nothing, and the wrapped row is the
      agent's row only when the offset is zero. */
  predicate RowStable(env: Environment, at: Position, dr: int) {
    var w := Norm(env.endless, at.row + dr, env.rows);
    Norm(env.endless, w, env.rows) == w && (w == at.row <==> dr == 0)
  }

  /** With a radius below the row count (or on a bounded grid) every visited row is stable. */
  lemma RowStableInWindow(env: Environment, at: Position, radius: int, dr: int)
    requires InGrid(env, at)
    requires !env.endless || radius < env.rows
    requires -radius <= dr < radius
    ensures RowStable(env, at, dr)
  {
  }

  /** The value of `row` after the inner loop has handled column `col`. */
  function NextRow(env: Environment, at: Position, row: int, col: int): int {
    if row == at.row && col == at.col then row else Norm(env.endless, row, env.rows)
  }

  /** The row state `row` agrees with the loop's own row value `at.row + dr`: it is the
      agent's row exactly for offset zero, and it wraps to the same row. */
  predicate InStep(env: Environment, at: Position, dr: int, row: int) {
    && (row == at.row <==> dr == 0)
    && Norm(env.endless, row, env.rows) == Norm(env.endless, at.row + dr, env.rows)
  }

  /** The row state stays in step with the loop's own row value from one column to the next. */
  lemma NextRowInStep(env: Environment, at: Position, dr: int, row: int, col: int)
    requires RowStable(env, at, dr) && InStep(env, at, dr, row)
    ensures InStep(env, at, dr, NextRow(env, at, row, col))
  {
  }

  /** One step of the inner loop contributes what the reference window has at that offset. */
  lemma ScanRowStep(env: Environment, self: AgentRef, at: Position, dr: int, row: int, dc: int, hi: int, rest: seq<AgentRef>)
    requires Valid(env) && InGrid(env, at)
    requires dc < hi
    requires InStep(env, at, dr, row)
    requires ScanRow(env, self, at, NextRow(env, at, row, at.col + dc), at.col + (dc + 1), at.col + hi) == Ok(rest)
    ensures ScanRow(env, self, at, row, at.col + dc, at.col + hi) == Ok(Contribution(env, self, at, dr, dc) + rest)
  {
    var col := at.col + dc;
    assert at.col + (dc + 1) == col + 1;
    if row == at.row && col == at.col {
      OriginStep(env, self, at, col, at.col + hi, rest);
    } else {
      var row' := Norm(env.endless, row, env.rows);
      OffsetStep(env, self, at, row, col, at.col + hi, rest);
      assert Target(env, at, dr, dc) == Position(row', Norm(env.endless, col, env.columns));
    }
  }

  /** The origin step of the inner loop contributes the origin cell's share. */
  lemma OriginStep(env: Environment, self: AgentRef, at: Position, col: int, hi: int, rest: seq<AgentRef>)
    requires Valid(env) && InGrid(env, at)
    requires col == at.col < hi
    requires ScanRow(env, self, at, at.row, col + 1, hi) == Ok(rest)
    ensures ScanRow(env, self, at, at.row, col, hi) == Ok(Contribution(env, self, at, 0, 0) + rest)
  {
    assert OriginCell(env, self, at.row, col) == Ok(Contribution(env, self, at, 0, 0));
  }

  /** Any other step of the inner loop contributes the cell its normalised coordinates name. */
  lemma OffsetStep(env: Environment, self: AgentRef, at: Position, row: int, col: int, hi: int, rest: seq<AgentRef>)
    requires Valid(env)
    requires col < hi && !(row == at.row && col == at.col)
    requires ScanRow(env, self, at, Norm(env.endless, row, env.rows), col + 1, hi) == Ok(rest)
    ensures ScanRow(env, self, at, row, col, hi)
      == Ok(Landing(env, Norm(env.endless, row, env.rows), Norm(env.endless, col, env.columns)) + rest)
  {
  }

  /** One inner loop equals row `dr` of the reference window, as long as the row state
      stays in step with the loop's own row value. */
  lemma {:induction false} ScanRowIsWindowRow(env: Environment, self: AgentRef, at: Position, dr: int, row: int, dc: int, hi: int)
    requires Valid(env) && InGrid(env, at)
    requires RowStable(env, at, dr) && InStep(env, at, dr, row)
    ensures ScanRow(env, self, at, row, at.col + dc, at.col + hi) == Ok(WindowRow(env, self, at, dr, dc, hi))
    decreases hi - dc
  {
    if dc < hi {
      var row' := NextRow(env, at, row, at.col + dc);
      NextRowInStep(env, at, dr, row, at.col + dc);
      ScanRowIsWindowRow(env, self, at, dr, row', dc + 1, hi);
      ScanRowStep(env, self, at, dr, row, dc, hi, WindowRow(env, self, at, dr, dc + 1, hi));
      RowStep(env, self, at, dr, dc, hi);
    }
  }

  /** The outer loop started at row offset `dr` equals the reference window rows from `dr` on. */
  lemma {:induction false} ScanRowsIsWindowRows(env: Environment, self: AgentRef, at: Position, dr: int, radius: int)
    requires Valid(env) && InGrid(env, at)
    requires !env.endless || radius < env.rows
    requires -radius <= dr
    ensures ScanRows(env, self, at, at.row + dr, radius) == Ok(WindowRows(env, self, at, dr, -radius, radius))
    decreases radius - dr
  {
    if dr < radius {
      ScanRowsIsWindowRows(env, self, at, dr + 1, radius);
      ScanRowsStep(env, self, at, dr, radius);
    }
  }

  /** A full inner loop at row offset `dr` equals that row of the reference window. */
  lemma InnerLoopIsWindowRow(env: Environment, self: AgentRef, at: Position, dr: int, radius: int)
    requires Valid(env) && InGrid(env, at)
    requires !env.endless || radius < env.rows
    requires -radius <= dr < radius
    ensures ScanRow(env, self, at, at.row + dr, at.col + -radius, at.col + radius)
      == Ok(WindowRow(env, self, at, dr, -radius, radius))
  {
    RowStableInWindow(env, at, radius, dr);
    ScanRowIsWindowRow(env, self, at, dr, at.row + dr, -radius, radius);
  }

  /** One step of the outer loop: a full inner loop, then the remaining rows. */
  lemma ScanRowsStep(env: Environment, self: AgentRef, at: Position, dr: int, radius: int)
    requires Valid(env) && InGrid(env, at)
    requires !env.endless || radius < env.rows
    requires -radius <= dr < radius
    requires ScanRows(env, self, at, at.row + (dr + 1), radius) == Ok(WindowRows(env, self, at, dr + 1, -radius, radius))
    ensures ScanRows(env, self, at, at.row + dr, radius) == Ok(WindowRows(env, self, at, dr, -radius, radius))
  {
    InnerLoopIsWindowRow(env, self, at, dr, radius);
    assert at.row + (dr + 1) == at.row + dr + 1;
    assert at.col + -radius == at.col - radius;
  }

  /** For a placed agent on a bounded grid, or on an endless grid with the radius below the
      row count, the as-written collection is exactly the reference window over the offsets
      `[-radius, radius)`: the row overwrite in the inner loop has no effect there. */
  lemma CollectIsHalfOpenWindow(env: Environment, self: AgentRef, agent: Agent, radius: int)
    requires Valid(env)
    requires agent.position.Some? && InGrid(env, agent.position.value)
    requires !env.endless || radius < env.rows
    ensures Collect(env, self, agent, "moore", radius) == Ok(Window(env, self, agent.position.value, -radius, radius))
  {
    var at := agent.position.value;
    ScanRowsIsWindowRows(env, self, at, -radius, radius);
    assert at.row + -radius == at.row - radius;
  }
}

=== FILE: shuffle.dfy ===
/** `random.shuffle(x)`: the in-place Fisher-Yates pass Python's `random` module runs,
    `for i in reversed(range(1, len(x))): j = randbelow(i + 1); x[i], x[j] = x[j], x[i]`.
    The random source is a parameter: a stream of draws, one per step. */
module Shuffling {
  import opened Lists

  /** `x[i], x[j] = x[j], x[i]`. */
  function Swap<T>(s: seq<T>, i: nat, j: nat): (r: seq<T>)
    requires i < |s| && j < |s|
    ensures |r| == |s| && r[i] == s[j] && r[j] == s[i]
    ensures forall k :: 0 <= k < |s| && k != i && k != j ==> r[k] == s[k]
  {
    s[i := s[j]][j := s[i]]
  }

  /** Exchanging two elements keeps every element with its multiplicity. */
  lemma SwapPermutes<T>(s: seq<T>, i: nat, j: nat)
    requires i < |s| && j < |s|
    ensures multiset(Swap(s, i, j)) == multiset(s)
  {
    var t := s[i := s[j]];
    assert multiset(t) == multiset(s) - multiset{s[i]} + multiset{s[j]};
    assert multiset(t[j := s[i]]) == multiset(t) - multiset{t[j]} + multiset{s[i]};
  }

  /** A swap inside the first `n` elements is a swap of that prefix and leaves the rest alone. */
  lemma SwapInPrefix<T>(s: seq<T>, i: nat, j: nat, n: nat)
    requires i < n && j < n && n <= |s|
    ensures Swap(s, i, j)[..n] == Swap(s[..n], i, j)
    ensures Swap(s, i, j)[n..] == s[n..]
  {
  }

  /** `randbelow(i + 1)` taken from the stream: the next draw reduced below `i + 1`, or `i`
      itself (no exchange) once the stream is exhausted. */
  function Pick(draws: seq<nat>, i: nat): (j: nat)
    ensures j <= i
    ensures |draws| > 0 && draws[0] <= i ==> j == draws[0]
  {
    if |draws| == 0 then i else draws[0] % (i + 1)
  }

  /** The draws left after one step. */
  function Rest(draws: seq<nat>): seq<nat> {
    if |draws| == 0 then [] else draws[1..]
  }

  /** Steps `i, i - 1, .., 1` of the pass. */
  function ShuffleFrom<T>(s: seq<T>, i: nat, draws: seq<nat>): (r: seq<T>)
    requires i < |s|
    ensures |r| == |s|
    ensures multiset(r) == multiset(s)
    ensures r[i + 1..] == s[i + 1..]
    decreases i
  {
    if i == 0 then s
    else
      var j := Pick(draws, i);
      SwapPermutes(s, i, j);
      var t := ShuffleFrom(Swap(s, i, j), i - 1, Rest(draws));
      assert t[i + 1..] == t[i..][1..];
      t
  }

  /** The whole pass: the result is a reordering of the input. */
  function Shuffle<T>(s: seq<T>, draws: seq<nat>): (r: seq<T>)
    ensures |r| == |s|
    ensures multiset(r) == multiset(s)
  {
    if |s| == 0 then s else ShuffleFrom(s, |s| - 1, draws)
  }

  /** One step of the pass, unfolded. */
  lemma ShuffleFromStep<T>(s: seq<T>, i: nat, draws: seq<nat>)
    requires 0 < i < |s|
    ensures ShuffleFrom(s, i, draws) == ShuffleFrom(Swap(s, i, Pick(draws, i)), i - 1, Rest(draws))
  {
  }

  /** With the draws exhausted every step exchanges an element with itself. */
  lemma {:induction false} ShuffleFromNoDraws<T>(s: seq<T>, i: nat)
    requires i < |s|
    ensures ShuffleFrom(s, i, []) == s
  {
    if i > 0 {
      assert Swap(s, i, i) == s;
      ShuffleFromNoDraws(s, i - 1);
    }
  }

  /** An empty draw stream leaves the list as it is. */
  lemma ShuffleNoDraws<T>(s: seq<T>)
    ensures Shuffle(s, []) == s
  {
    if |s| > 0 {
      ShuffleFromNoDraws(s, |s| - 1);
    }
  }

  /** Bringing the element `t[i]` to position `i` leaves a prefix that is a reordering of
      `t[..i]` and a suffix that already agrees with `t`. */
  lemma SwapIntoPlace<T>(s: seq<T>, t: seq<T>, i: nat, j: nat)
    requires j <= i < |s| == |t|
    requires multiset(s[..i + 1]) == multiset(t[..i + 1])
    requires s[i + 1..] == t[i + 1..]
    requires s[j] == t[i]
    ensures multiset(Swap(s, i, j)[..i]) == multiset(t[..i])
    ensures Swap(s, i, j)[i..] == t[i..]
  {
    var s' := Swap(s, i, j);
    SwapInPrefix(s, i, j, i + 1);
    SwapPermutes(s[..i + 1], i, j);
    DropLast(s'[..i + 1], t[..i + 1]);
    assert s'[..i + 1][..i] == s'[..i];
    assert t[..i + 1][..i] == t[..i];
    assert s'[i..] == [t[i]] + s'[i + 1..];
    assert t[i..] == [t[i]] + t[i + 1..];
  }

  /** Two reorderings of each other that end in the same element are still reorderings of
      each other without it. */
  lemma DropLast<T>(a: seq<T>, b: seq<T>)
    requires |a| == |b| > 0 && multiset(a) == multiset(b) && a[|a| - 1] == b[|b| - 1]
    ensures multiset(a[..|a| - 1]) == multiset(b[..|b| - 1])
  {
    var n := |a| - 1;
    assert a == a[..n] + [a[n]];
    assert b == b[..n] + [b[n]];
    assert multiset(a[..n]) == multiset(a) - multiset{a[n]};
    assert multiset(b[..n]) == multiset(b) - multiset{b[n]};
  }

  /** An element of the multiset of `s[..n]` sits at some index below `n`. */
  lemma IndexOf<T>(s: seq<T>, n: nat, x: T) returns (j: nat)
    requires n <= |s| && x in multiset(s[..n])
    ensures j < n && s[j] == x
  {
    assert x in s[..n];
    j :| 0 <= j < n && s[..n][j] == x;
  }

  /** Draws that make steps `i .. 1` turn `s` into `t`, when `t` reorders only the first
      `i + 1` elements of `s`. */
  lemma {:induction false} DrawsFrom<T>(s: seq<T>, t: seq<T>, i: nat) returns (draws: seq<nat>)
    requires i < |s| == |t|
    requires multiset(s[..i + 1]) == multiset(t[..i + 1])
    requires s[i + 1..] == t[i + 1..]
    ensures ShuffleFrom(s, i, draws) == t
    decreases i
  {
    if i == 0 {
      assert s[..1] == [s[0]] && t[..1] == [t[0]];
      assert s[0] in multiset(t[..1]);
      assert s == s[..1] + s[1..] && t == t[..1] + t[1..];
      draws := [];
    } else {
      assert t[..i + 1] == t[..i] + [t[i]];
      var j := IndexOf(s, i + 1, t[i]);
      SwapIntoPlace(s, t, i, j);
      var more := DrawsFrom(Swap(s, i, j), t, i - 1);
      draws := [j] + more;
      assert Pick(draws, i) == j && Rest(draws) == more;
      ShuffleFromStep(s, i, draws);
    }
  }

  /** Reorderings of each other have the same length. */
  lemma SameLength<T>(s: seq<T>, t: seq<T>)
    requires multiset(s) == multiset(t)
    ensures |s| == |t|
  {
    assert |multiset(s)| == |s| && |multiset(t)| == |t|;
  }

  /** Draws that make the whole pass turn `s` into its reordering `t`. */
  lemma DrawsFor<T>(s: seq<T>, t: seq<T>) returns (draws: seq<nat>)
    requires multiset(s) == multiset(t)
    ensures Shuffle(s, draws) == t
  {
    SameLength(s, t);
    if |s| == 0 {
      draws := [];
      assert s == [] && t == [];
    } else {
      var n := |s| - 1;
      assert multiset(s[..n + 1]) == multiset(t[..n + 1]) && s[n + 1..] == t[n + 1..] by {
        assert s[..n + 1] == s && t[..n + 1] == t;
      }
      draws := DrawsFrom(s, t, n);
    }
  }

  /** Every reordering of `s` is a possible outcome of the pass: the draw stream does not
      restrict which permutation comes out. */
  lemma EveryOrderReachable<T>(s: seq<T>, t: seq<T>)
    requires multiset(s) == multiset(t)
    ensures exists draws :: Shuffle(s, draws) == t
  {
    var draws := DrawsFor(s, t);
  }

  /** Shuffling neither adds nor drops an element. */
  lemma ShuffleKeepsMembers<T>(s: seq<T>, draws: seq<nat>, x: T)
    ensures x in Shuffle(s, draws) <==> x in s
  {
    assert x in Shuffle(s, draws) <==> x in multiset(Shuffle(s, draws));
    assert x in s <==> x in multiset(s);
  }

  /** Shuffling a list without repetitions gives a list without repetitions. */
  lemma ShuffleKeepsDistinct<T>(s: seq<T>, draws: seq<nat>)
    requires Distinct(s)
    ensures Distinct(Shuffle(s, draws))
  {
    DistinctPermutation(s, Shuffle(s, draws));
  }
}

=== FILE: window.dfy ===
/** A reference definition of a square neighbourhood window: for every row offset `dr` and
    column offset `dc` in `[lo, hi)`, the agents the cell at that offset contributes. The
    origin cell (offset `(0, 0)`) contributes its other occupants only when cells hold more
    than one agent; any other offset contributes the whole cell it lands on, after one wrap
    step per axis on an endless grid, and nothing when it lands outside the grid. */
module Windows {
  import opened Lists
  import opened Agents
  import opened Grid

  /** One wrap step along an axis of length `n`: a coordinate below 1 gains `n`, then one
      above `n` loses `n`. Applied once, so it only lands inside the axis for
      `1 - n <= x <= 2n`. */
  function Wrap(x: int, n: int): (y: int)
    ensures n >= 1 && 1 - n <= x <= 2 * n ==> 1 <= y <= n
    ensures 1 <= x <= n ==> y == x
    ensures y == x || y == x + n || y == x - n
  {
    var y := if x < 1 then n + x else x;
    if y > n then y - n else y
  }

  /** Coordinate normalisation: a wrap step on an endless grid, nothing on a bounded one. */
  function Norm(endless: bool, x: int, n: int): int {
    if endless then Wrap(x, n) else x
  }

  /** The cell reached from `pos` by the offset `(dr, dc)`. */
  function Target(env: Environment, pos: Position, dr: int, dc: int): Position {
    Position(Norm(env.endless, pos.row + dr, env.rows), Norm(env.endless, pos.col + dc, env.columns))
  }

  /** The occupants of cell `(row, col)`, or nothing when it lies outside the grid. */
  function Landing(env: Environment, row: int, col: int): seq<AgentRef> {
    if InGrid(env, Position(row, col)) then CellAt(env, Position(row, col)) else []
  }

  /** What the offset `(dr, dc)` around `self`'s cell `pos` contributes. */
  function Contribution(env: Environment, self: AgentRef, pos: Position, dr: int, dc: int): seq<AgentRef>
  {
    if dr == 0 && dc == 0 then
      if env.capacity > 1 then Without(CellAt(env, pos), self) else []
    else
      var q := Target(env, pos, dr, dc);
      Landing(env, q.row, q.col)
  }

  /** Contributions of the offsets `(dr, dc) .. (dr, hi - 1)`, in column order. */
  function WindowRow(env: Environment, self: AgentRef, pos: Position, dr: int, dc: int, hi: int): seq<AgentRef>
    decreases hi - dc
  {
    if dc >= hi then []
    else Contribution(env, self, pos, dr, dc) + WindowRow(env, self, pos, dr, dc + 1, hi)
  }

  /** Rows `dr .. hi - 1` of the window whose column offsets run over `[lo, hi)`. */
  function WindowRows(env: Environment, self: AgentRef, pos: Position, dr: int, lo: int, hi: int): seq<AgentRef>
    decreases hi - dr
  {
    if dr >= hi then []
    else WindowRow(env, self, pos, dr, lo, hi) + WindowRows(env, self, pos, dr + 1, lo, hi)
  }

  /** The whole window, offsets `[lo, hi)` on both axes, row by row. */
  function Window(env: Environment, self: AgentRef, pos: Position, lo: int, hi: int): seq<AgentRef>
  {
    WindowRows(env, self, pos, lo, lo, hi)
  }

  /** The column offset through which an agent of a window row entered it. */
  lemma {:induction false} RowOffsetOf(env: Environment, self: AgentRef, pos: Position, dr: int, dc: int, hi: int, b: AgentRef)
    returns (c: int)
    requires b in WindowRow(env, self, pos, dr, dc, hi)
    ensures dc <= c < hi && b in Contribution(env, self, pos, dr, c)
    decreases hi - dc
  {
    RowStep(env, self, pos, dr, dc, hi);
    if b in Contribution(env, self, pos, dr, dc) {
      c := dc;
    } else {
      c := RowOffsetOf(env, self, pos, dr, dc + 1, hi, b);
    }
  }

  /** The offset through which an agent of the window entered it. */
  lemma {:induction false} OffsetOf(env: Environment, self: AgentRef, pos: Position, dr: int, lo: int, hi: int, b: AgentRef)
    returns (r: int, c: int)
    requires b in WindowRows(env, self, pos, dr, lo, hi)
    ensures dr <= r < hi && lo <= c < hi && b in Contribution(env, self, pos, r, c)
    decreases hi - dr
  {
    RowsStep(env, self, pos, dr, lo, hi);
    if b in WindowRow(env, self, pos, dr, lo, hi) {
      r := dr;
      c := RowOffsetOf(env, self, pos, dr, lo, hi, b);
    } else {
      r, c := OffsetOf(env, self, pos, dr + 1, lo, hi, b);
    }
  }

  /** A window row is its first contribution followed by the rest of the row. */
  lemma RowStep(env: Environment, self: AgentRef, pos: Position, dr: int, dc: int, hi: int)
    requires dc < hi
    ensures WindowRow(env, self, pos, dr, dc, hi)
      == Contribution(env, self, pos, dr, dc) + WindowRow(env, self, pos, dr, dc + 1, hi)
  {
  }

  /** Window rows from `dr` on are row `dr` followed by the rows after it. */
  lemma RowsStep(env: Environment, self: AgentRef, pos: Position, dr: int, lo: int, hi: int)
    requires dr < hi
    ensures WindowRows(env, self, pos, dr, lo, hi)
      == WindowRow(env, self, pos, dr, lo, hi) + WindowRows(env, self, pos, dr + 1, lo, hi)
  {
  }

  /** Every agent the offset `(dr, c)` contributes is in the window row through column `c`. */
  lemma {:induction false} OffsetLandsInRow(env: Environment, self: AgentRef, pos: Position, dr: int, dc: int, hi: int, c: int, b: AgentRef)
    requires dc <= c < hi && b in Contribution(env, self, pos, dr, c)
    ensures b in WindowRow(env, self, pos, dr, dc, hi)
    decreases hi - dc
  {
    if c > dc {
      OffsetLandsInRow(env, self, pos, dr, dc + 1, hi, c, b);
    }
  }

  /** Every agent an offset in `[lo, hi)` x `[lo, hi)` contributes is in the window. */
  lemma {:induction false} OffsetsLandInWindow(env: Environment, self: AgentRef, pos: Position, dr: int, lo: int, hi: int, r: int, c: int, b: AgentRef)
    requires dr <= r < hi && lo <= c < hi && b in Contribution(env, self, pos, r, c)
    ensures b in WindowRows(env, self, pos, dr, lo, hi)
    decreases hi - dr
  {
    RowsStep(env, self, pos, dr, lo, hi);
    if r == dr {
      OffsetLandsInRow(env, self, pos, dr, lo, hi, c, b);
    } else {
      OffsetsLandInWindow(env, self, pos, dr + 1, lo, hi, r, c, b);
    }
  }

  /** Every agent an offset in `[lo, hi)` x `[lo, hi)` contributes is in the whole window. */
  lemma OffsetInWindow(env: Environment, self: AgentRef, pos: Position, lo: int, hi: int, r: int, c: int, b: AgentRef)
    requires lo <= r < hi && lo <= c < hi && b in Contribution(env, self, pos, r, c)
    ensures b in Window(env, self, pos, lo, hi)
  {
    OffsetsLandInWindow(env, self, pos, lo, lo, hi, r, c, b);
  }

  /** An agent is in the window exactly when some offset in `[lo, hi)` x `[lo, hi)`
      contributes it. */
  lemma WindowMembers(env: Environment, self: AgentRef, pos: Position, lo: int, hi: int, b: AgentRef)
    ensures b in Window(env, self, pos, lo, hi) <==>
      exists r, c :: lo <= r < hi && lo <= c < hi && b in Contribution(env, self, pos, r, c)
  {
    if b in Window(env, self, pos, lo, hi) {
      var r, c := OffsetOf(env, self, pos, lo, lo, hi, b);
    }
    if exists r, c :: lo <= r < hi && lo <= c < hi && b in Contribution(env, self, pos, r, c) {
      var r, c :| lo <= r < hi && lo <= c < hi && b in Contribution(env, self, pos, r, c);
      OffsetsLandInWindow(env, self, pos, lo, lo, hi, r, c, b);
    }
  }
}

=== FILE: wrappers.dfy ===
/** Failure-compatible result types and the two Python exceptions the core can raise. */
module Wrappers {

  datatype Option<+T> = None | Some(value: T)

  /** The exceptions that escape from the grid code: a list index out of range, and a read
      of an attribute (`Row`/`Col`) the agent object never got. */
  datatype Error = IndexError | AttributeError

  datatype Result<+T> = Ok(value: T) | Err(error: Error) {

    predicate IsFailure() {
      Err?
    }

    function PropagateFailure<U>(): Result<U>
      requires Err?
    {
      Err(error)
    }

    function Extract(): T
      requires Ok?
    {
      value
    }
  }
}
